=== FILE: README.md ===
# Linechart state machine in Dafny

A model of the data and statistics core of `Linechart`, the canvas line-chart
widget in `linechart.js`. The chart is an immutable `LineChart.Chart` record:

- its geometry: anchor `x`, `y`, `width`, `height`, and the derived bounds `top`, `right`, `left`, `bottom`;
- its series: a sequence of `Slot`s, each a `Series` of entries or a `Hole`;
- its running extrema `maxValueX/Y` and `minValueX/Y`, as `Extrema.Bounds` over extended integers;
- `maxDataLength`;
- the fields that `updateStat` derives, as `Stat.Stats`.

Each operation is a pure function, or for `replaceData` a method, from a
chart to a new chart and a `Status`:

- `Ok`: `addEntry` or `replaceData` returns true, or `addData` completes.
- `Rejected`: the source logs an error and returns a falsy value.
- For `addData` both outcomes return `undefined`. There, `Ok` versus `Rejected` says whether an error was logged, not what was returned.
- `Threw`: the source raises a TypeError.

The modules follow the structure of the code:

- `JsNumber`: the JavaScript number operations that `updateStat` and the pixel mapping use (`-`, `+`, `*`, `/`, `Math.max`, truthiness). Finite values are exact reals. `+Infinity`, `-Infinity` and `NaN` are explicit values.
- `Extrema`: entries, extended-integer extrema with their sentinels, and the one-entry widening step shared by `addData` and `addEntry`, plus its fold over a list.
- `Stat`: `updateStat`. It covers the insets, `actualStepValueX` and the two coordinate steps, each with its guard.
- `LineChart`: the chart state and `constructor`, `reset`, `updateCoordinate`, `resize`, `addData`, `addEntry` and `replaceData`. It also holds the invariant `Consistent`. The constructor, `reset`, `resize`, `addData`, `addEntry` and `replaceData` preserve it. So does `updateCoordinate` at the chart's own anchor, as `resize` and the constructor call it. A direct call with another anchor breaks it (see "## Left out").
- `Draw`: the point-to-pixel mapping and the per-series hue cycling inside `draw`.
- `Scenarios`: worked examples on small inputs, proved as lemmas.

Where the documentation in the source and the code disagree, the model follows the code:

- An omitted or `undefined` constructor argument takes the default `[]` (`Present([])`). Only an explicit `null` or other falsy value reaches the abort in `addData` (`Absent`).
- The constructor passes its `data` argument straight to `addData`. That treats it as ONE series, although the doc comment describes a list of series. The default `[]` therefore yields one empty series with sentinel extrema.
- An entry is checked for length only. Any list of two or more components is accepted, numeric or not. So an entry such as `["a", 2]` or `[2, "x"]` is accepted, not rejected. Entries are modelled as `seq<int>`; the NaN extrema such an entry produces are listed under "Left out".
- `addData` is not atomic. `maxDataLength` is raised before the entries are validated.
- `addData` overwrites the extrema with those of the new series alone. It does not merge them with the extrema of earlier series.
- `addEntry` recomputes the statistics before it raises `maxDataLength`.
- `replaceData` does not roll back the extrema. When it fails at `index == data.length`, it leaves an `undefined` slot (`Hole`). A later `addEntry` into that slot throws. Every later `draw` also throws a TypeError at linechart.js:269 (`this.data[k].length` on `undefined`), until `reset`, or until a successful `replaceData` at that index refills the slot.

Two unguarded corners of `updateStat` are modelled, not excluded:

- `actualStepValueX` is `+Infinity` when the X range is zero and `maxDataLength > 0`.
- A coordinate step is `-Infinity` when its range is zero and its pixel span is negative.
  For a single-point chart this happens when the width is below 60 or the height below 94.
  The point then maps to NaN.

## Model

| member | source | states |
|---|---|---|
| Extrema.MaxWith | linechart.js:68-69 | `Math.max` of an entry component and an extremum is an upper bound of both and equals one of them |
| Extrema.MinWith | linechart.js:70-71 | `Math.min` of an entry component and an extremum is a lower bound of both and equals one of them |
| Extrema.Widen | linechart.js:137-141 | one tracking step only widens the extrema, encloses the entry, takes each new extremum from the old one or the entry, and keeps the extrema well-formed |
| Extrema.Fold | linechart.js:60-72 | definition of the extrema loop of `addData` (one `Widen` per entry, in order); its contract states that it only widens the start; FoldWidens, FoldAttains and FoldSnoc carry the rest |
| Extrema.FoldWhileValid | linechart.js:114-118 | definition of the extrema effect of the `replaceData` loop, which stops at the first entry `addEntry` refuses; its contract states that it only widens the start; FoldWhileValidAll and FoldWhileValidStops relate it to Fold |
| Extrema.FoldWidens | linechart.js:60-72 | tracking a list of entries widens the starting extrema, encloses every entry, and keeps well-formed extrema well-formed (finite once an entry is seen) |
| Extrema.FoldAttains | linechart.js:68-71 | every tracked extremum is the starting value or a component of some entry |
| Extrema.FoldSnoc | linechart.js:114-115 | tracking one more entry at the end is one more widening step, as each `addEntry` call of the `replaceData` loop does |
| Extrema.FoldWhileValidAll | linechart.js:114-120 | over all-valid entries the `replaceData` loop tracks every entry |
| Extrema.FoldWhileValidStops | linechart.js:115-118 | the `replaceData` loop stops tracking at the first entry `addEntry` refuses, covering exactly the entries before it |
| Stat.ActualStep | linechart.js:89-92 | `actualStepValueX` is at least 1 or +Infinity, and +Infinity exactly when the X range is a zero finite range and `maxDataLength > 0`; outside a non-empty finite range it is otherwise exactly the guard's 1 |
| Stat.ActualStepQuotient | linechart.js:89 | over a non-empty finite X range the step is `max(maxDataLength / range, 1)` |
| Stat.CoordStep | linechart.js:94-103 | a coordinate step is never 0, NaN or +Infinity; it is -Infinity exactly for a zero finite range with a negative span; whenever a bound is a sentinel, the range is zero or the span is zero, it is otherwise exactly the guard's 1 |
| Stat.CoordStepQuotient | linechart.js:94 | with a non-zero finite range and a non-zero span the guard does not fire and the step is span / range |
| Stat.CoordStepZeroRange | linechart.js:94-103 | over a zero finite range the step is 1, or -Infinity when the span is negative |
| Stat.Compute | linechart.js:83-104 | the plot area is the outer area inset by 35 left, 25 right, 100 bottom, 6 top, and the steps are those of the current extrema and `maxDataLength` |
| LineChart.UpdateCoordinate | linechart.js:39-44 | the bounds form the width x height rectangle anchored at the given (x, y); nothing else changes |
| LineChart.Pairs | linechart.js:67 | `addData` keeps the first two components of every entry, in order |
| LineChart.AddData | linechart.js:47-81 | a falsy argument changes nothing; an invalid entry aborts with only `maxDataLength` raised; otherwise exactly one series of pairs is appended, the extrema become those of that series alone, and the statistics are recomputed |
| LineChart.New | linechart.js:20-32 | construction derives the bounds from the arguments and adds the argument as one series, with the extrema of that series and statistics computed from it; an explicit `null` (`Absent`) or an invalid argument leaves no series, sentinel extrema and no statistics (an omitted argument is the default `[]`) |
| LineChart.Reset | linechart.js:34-36 | `reset` empties the series list and leaves every other field as it was |
| LineChart.Resize | linechart.js:154-160 | `resize` keeps the anchor and the data, re-derives the bounds from (x, y, width, height), and recomputes all statistics from the new geometry, the extrema and the current `maxDataLength`, with the plot insets at x+35, x+width-25, y+100, y+height+6 |
| LineChart.Put | linechart.js:113 | assigning slot `index`, one past the end included, changes that slot only and grows the list by one only past the end |
| LineChart.AddEntry | linechart.js:127-152 | rejection exactly for a short entry or an index outside 0..data.length, with no change; a TypeError with no change on a hole; otherwise the entry as given is appended to series `index` only (a new series past the end), the extrema only widen, the statistics use the old `maxDataLength`, and `maxDataLength` then covers the series |
| LineChart.ValidPrefix | linechart.js:114-119 | the number of entries `replaceData` accepts before the first rejected one, 0..length, all of them valid, and the whole list exactly when every entry is valid |
| LineChart.ReplaceData | linechart.js:106-124 | an index outside 0..data.length changes nothing; otherwise the extrema are widened over the entries up to the first invalid one and `maxDataLength` covers them; all-valid entries replace series `index` exactly and succeed; otherwise the series list is restored (plus a hole past the end) and the call fails; consistency is preserved |
| LineChart.ValidPrefixStops | linechart.js:115-118 | the loop stops exactly at the end of the valid prefix |
| LineChart.ReplaceStep | linechart.js:114-115 | one accepted iteration appends the entry to the replaced series, extends the tracked extrema by it and keeps the chart consistent |
| LineChart.ReplaceRollback | linechart.js:115-118 | a refused entry restores the series list (a hole past the end) while extrema and `maxDataLength` keep the accepted entries, and consistency is kept |
| LineChart.ReplaceComplete | linechart.js:114-122 | when the loop accepts every entry, the extrema tracked so far equal those tracked up to the first invalid entry, and the length covered is the whole valid prefix |
| LineChart.AddEntryConsistent | linechart.js:127-152 | `addEntry` preserves the chart invariant |
| LineChart.SlotConsistent | linechart.js:113 | clearing a slot for `replaceData` preserves the chart invariant |
| LineChart.RestoreConsistent | linechart.js:117 | the rollback of `replaceData` preserves the chart invariant |
| LineChart.NewConsistent | linechart.js:20-32 | every constructed chart satisfies the invariant: derived bounds, well-formed extrema, valid stored entries no longer than `maxDataLength`, and statistics that agree with geometry and extrema |
| LineChart.AddDataConsistent | linechart.js:47-81 | `addData` preserves the chart invariant |
| LineChart.ResizeConsistent | linechart.js:154-160 | `resize` preserves the chart invariant |
| LineChart.ResetConsistent | linechart.js:34-36 | `reset` preserves the chart invariant |
| LineChart.AddDataTakesSeriesExtrema | linechart.js:53-78 | after a successful `addData` the extrema are the sentinels for an empty series, and otherwise the least and greatest x and y of the new series, each attained by one of its entries |
| LineChart.AddDataForgetsEarlierSeries | linechart.js:75-78 | the extrema are overwritten, not merged: an earlier point right of every new x lies outside the chart's range afterwards |
| LineChart.UpdateCoordinateAtAnchor | linechart.js:39-44 | on a consistent chart `updateCoordinate` at the own anchor changes nothing |
| LineChart.UpdateCoordinateElsewhere | linechart.js:39-44 | at any other anchor the bounds no longer derive from `x`, `y`, and the statistics are not refreshed |
| LineChart.ResizeLastWins | linechart.js:154-160 | two resizes in a row equal the last one alone |
| Draw.PixelX | linechart.js:270 | `(dataX - minX) * coordinateStepValueX + startX` in JavaScript number semantics: with a finite minimum and a finite step it is that real value, and a NaN step gives NaN; see PixelXEnds, PixelXAtMinimum, PixelXSpansPlot |
| Draw.PixelY | linechart.js:271 | `endY - (dataY - minY) * coordinateStepValueY` in JavaScript number semantics: with a finite minimum and a finite step it is that real value, and a NaN step gives NaN; see PixelYEnds, PixelYAtMinimum, PixelYSpansPlot |
| Draw.PixelXEnds | linechart.js:270 | with step span / (hi - lo) the X mapping sends lo to `startX` and hi to `startX + span` |
| Draw.PixelYEnds | linechart.js:271 | with step span / (hi - lo) the Y mapping sends lo to `endY` and hi to `endY - span` |
| Draw.PixelXSpansPlot | linechart.js:270 | on a consistent chart with a non-empty X range and a width other than exactly the 60 of its margins (a non-zero pixel span, negative included), `minX` maps to `startX` and `maxX` to `endX` |
| Draw.PixelYSpansPlot | linechart.js:271 | on a consistent chart with a non-empty Y range and a height other than exactly the 94 of its margins (a non-zero pixel span, negative included), `minY` maps to `endY` and `maxY` to `startY` |
| Draw.PixelXAtMinimum | linechart.js:270 | whenever the X step is finite, the minimum X maps to `startX` |
| Draw.PixelYAtMinimum | linechart.js:271 | whenever the Y step is finite, the minimum Y maps to `endY` |
| Draw.PixelXAtOwnMinimum | linechart.js:270 | at the minimum a step of 1 gives `startX` and a step of -Infinity gives NaN |
| Draw.PixelYAtOwnMinimum | linechart.js:271 | at the minimum a step of 1 gives `endY` and a step of -Infinity gives NaN |
| Draw.SinglePointX | linechart.js:94-98 | with a single X value and width at least 60 the step is 1 and the value maps to `startX`; with width below 60 the step is -Infinity and the value maps to NaN |
| Draw.SinglePointY | linechart.js:99-103 | with a single Y value and height at least 94 the step is 1 and the value maps to `endY`; with height below 94 the step is -Infinity and the value maps to NaN |
| Draw.PixelOrder | linechart.js:270-271 | with a positive step the X mapping preserves the order of data values and the Y mapping reverses it |
| Draw.SentinelExtremaLosePoints | linechart.js:270-271 | under sentinel extrema every point maps to -Infinity horizontally and +Infinity vertically |
| Draw.Hue | linechart.js:300-303 | a hue that starts in 0..360 and advances modulo 361 stays in 0..360 |
| Draw.LineHue | linechart.js:265 | the line hue of every series is in 0..360 |
| Draw.PointHue | linechart.js:264 | the point hue of every series is in 0..360 |
| Draw.HueClosedForm | linechart.js:264-303 | the hue of series k is `(start + step * k) mod 361`: 300 + 100k for lines, 200 + 50k for points |
| Draw.HuePeriodic | linechart.js:300-303 | hues repeat with period 361 series |
| Draw.NeighbourHuesDiffer | linechart.js:300-303 | consecutive series never share a line hue or a point hue |
| Scenarios.ConstructWithThreePoints | linechart.js:20-32 | constructing with three points gives one series, extrema 1..3 on both axes and `maxDataLength` 3 |
| Scenarios.DefaultConstruction | linechart.js:20 | the default construction holds one empty series, sentinel extrema and `maxDataLength` 0 |
| Scenarios.FirstEntryPinsExtrema | linechart.js:137-141 | a first entry into an empty series under sentinel extrema pins all four extrema to it |
| Scenarios.EntryAfterResetCreatesSeries | linechart.js:133-136 | after `reset`, `addEntry(0, e)` creates series 0 holding e |
| Scenarios.EntryLengthCheck | linechart.js:128 | a one-component entry is refused with no change; a three-component entry is stored as given |
| Scenarios.EntryStatsLagLength | linechart.js:143-144 | the stored `actualStepValueX` is computed for the old `maxDataLength` (1, not 2) |
| Scenarios.AddDataRaisesLengthBeforeAbort | linechart.js:58-64 | an aborted `addData` leaves the series unchanged but `maxDataLength` raised |
| Scenarios.ReplaceRollsBack | linechart.js:112-118 | a failed replacement restores the series but keeps the extrema widened by the accepted entry |
| Scenarios.ReplaceLeavesHole | linechart.js:112-117 | a failed replacement one past the end leaves a hole, and `addEntry` into it throws |
| Scenarios.ReplaceRefillsHole | linechart.js:112-122 | a later successful `replaceData` at the hole's index refills the slot, so the hole does not persist |

## Left out

- `draw` apart from the pixel mapping and hue formulas, and `drawChartText` (linechart.js:167-308). Their canvas calls, text layout, font sizes and dashed gridline loops act on an external 2D context. The loops also step by float increments.
- The marker condition `parseInt(i % actualStepValueX) == 0` (linechart.js:286). `parseInt` reads the decimal string of a float, so exponent forms such as `2e-7` parse differently from a floor. A faithful model needs JavaScript's number-to-string conversion.
- `updateMax` (linechart.js:310-318). It spreads a scalar (`Math.max(...data[i][0])`), which throws, and it writes fields nothing reads.
- `update` (linechart.js:162-164) is an empty hook.
- The `game`, `title`, `labelX` and `labelY` fields. `game` is never read; only `draw` reads the other three.
- Non-integer or missing geometry. `x`, `y`, `width` and `height` are modelled as integers. In the source they may be fractional, or `undefined`, which makes the bounds NaN. No proved property depends on integrality beyond exact arithmetic.
- A direct `updateCoordinate` call with an anchor other than (x, y) (linechart.js:39-44). It moves the bounds but not `x`, `y` or the statistics, so such a chart is outside `Consistent`. `LineChart.UpdateCoordinateElsewhere` states the break; the invariant lemmas do not cover what follows it.
- Entry aliasing. `addEntry` and `replaceData` store the caller's own array (linechart.js:136), so a later change by the caller changes the stored series. It can even shorten an entry below two components. Entries are modelled as values, so `Consistent` assumes stored entries stay valid.
- Console logging. Only the returned or logged outcome is kept, as `Status`.
- IEEE-754 rounding and signed zero. Finite values are exact reals. Every zero that reaches a divisor here is a positive zero.
- Non-array entries, non-integer indices and non-array truthy arguments to `addData`. Entries are integer sequences, indices are integers, and the `addData` argument is absent or a list.
- Non-numeric components. An accepted entry such as `["a", 2]` makes `Math.max`/`Math.min` yield NaN (linechart.js:137-141). NaN then survives every later `Math.max`/`Math.min`, so the extrema stay NaN until the next successful `addData` of numeric entries. `Widen`'s widening property and `WellFormed` hold only because components are modelled as integers.
- LineChart.ReplaceData: its argument is always a list of lists, so three cases without rollback are not modelled. An explicit `null` argument (only `undefined` gets the default `[]`, linechart.js:106) clears slot `index`, or appends an empty series when `index == data.length`, and then throws a TypeError on `null.length` at line 114. A truthy argument without `length` skips the loop and succeeds with the slot emptied. A `null` entry throws inside `addEntry` (line 127), and the slot keeps the entries accepted before it. In all three cases the previous slot is not restored.
- LineChart.ReplaceData: its contract does not state the statistics field beyond the chart invariant. The statistics are those of the last accepted `addEntry`, computed with that call's stale `maxDataLength`.
- LineChart.Consistent bounds `actualStepX` (at least 1 or +Infinity) but does not pin its value. `addEntry` and an aborted `addData` let it lag behind `maxDataLength`.

=== FILE: chart.dfy ===
/** The `Linechart` state and its mutating operations: construction,
    `reset`, `updateCoordinate`, `resize`, `addData`, `addEntry` and
    `replaceData`. Each operation maps a chart to a new chart and a status
    standing for the value the source returns or logs; all are pure
    functions except `ReplaceData`, a method whose loop follows the source's. */
module LineChart {
  import J = JsNumber
  import opened Extrema
  import opened Stat

  /** One slot of the series list. `Hole` is the `undefined` that a failed
      `replaceData` at index `data.length` leaves behind. */
  datatype Slot = Hole | Series(points: seq<Entry>)

  datatype Chart = Chart(
    x: int, y: int, width: int, height: int,
    top: int, right: int, left: int, bottom: int,
    data: seq<Slot>,
    extrema: Bounds,
    maxDataLength: nat,
    stats: Stats)

  /** `Ok`: the operation took effect (`addEntry`/`replaceData` return true).
      `Rejected`: the input was refused and logged (a falsy return).
      `Threw`: the source raises a TypeError. */
  datatype Status = Ok | Rejected | Threw

  datatype Step = Step(chart: Chart, status: Status)

  /** The argument of `addData`: `Absent` is a falsy value such as `null`,
      `Present` an array. For the constructor an omitted or `undefined`
      argument takes the default `[]`, which is `Present([])`; only `null`
      (or another falsy value passed explicitly) is `Absent` there. */
  datatype Input = Absent | Present(entries: seq<Entry>)

  function Max(a: nat, b: nat): nat {
    if a < b then b else a
  }

  /** The outer bounds are the rectangle of size width x height anchored at (x, y). */
  predicate Geometric(c: Chart) {
    c.left == c.x && c.bottom == c.y && c.right == c.x + c.width && c.top == c.y + c.height
  }

  /** The eight geometry fields (anchor, size and outer bounds) are those
      of `c`; series, extrema, `maxDataLength` and statistics may differ. */
  predicate SameShape(r: Chart, c: Chart) {
    && r.x == c.x && r.y == c.y && r.width == c.width && r.height == c.height
    && r.top == c.top && r.right == c.right && r.left == c.left && r.bottom == c.bottom
  }

  function StatsFor(c: Chart): Stats {
    Compute(c.left, c.right, c.bottom, c.top, c.extrema, c.maxDataLength)
  }

  /** Invariant kept by construction and by every operation except a direct
      `updateCoordinate` to another anchor: geometry derived from (x, y, width,
      height); well-formed extrema; every stored entry valid and no series
      longer than `maxDataLength`; and, once `updateStat` has run, insets and
      coordinate steps that agree with the current geometry and extrema. */
  predicate Consistent(c: Chart) {
    && Geometric(c)
    && WellFormed(c.extrema)
    && (forall k :: 0 <= k < |c.data| && c.data[k].Series? ==>
          AllValid(c.data[k].points) && |c.data[k].points| <= c.maxDataLength)
    && (c.stats.Stats? ==>
          && c.stats.startX == StatsFor(c).startX && c.stats.endX == StatsFor(c).endX
          && c.stats.startY == StatsFor(c).startY && c.stats.endY == StatsFor(c).endY
          && c.stats.coordStepX == StatsFor(c).coordStepX && c.stats.coordStepY == StatsFor(c).coordStepY
          && (c.stats.actualStepX == J.PosInf || (c.stats.actualStepX.Real? && c.stats.actualStepX.v >= 1.0)))
  }

  /** `updateCoordinate(x, y)`: only the four outer bounds change. */
  function UpdateCoordinate(c: Chart, x: int, y: int): (r: Chart)
    ensures r.left == x && r.bottom == y
    ensures r.right - r.left == c.width && r.top - r.bottom == c.height
    ensures r.(top := c.top, right := c.right, left := c.left, bottom := c.bottom) == c
  {
    c.(top := y + c.height, right := x + c.width, left := x, bottom := y)
  }

  function UpdateStat(c: Chart): Chart {
    c.(stats := StatsFor(c))
  }

  /** The first two components of each entry, in order: what `addData` stores. */
  function Pairs(es: seq<Entry>): (r: seq<Entry>)
    requires AllValid(es)
    ensures |r| == |es| && AllValid(r)
    ensures forall i :: 0 <= i < |es| ==> r[i] == [es[i][0], es[i][1]]
  {
    seq(|es|, i requires 0 <= i < |es| => [es[i][0], es[i][1]])
  }

  /** `addData(newData)`: a falsy argument changes nothing. Otherwise
      `maxDataLength` is first raised to the argument's length; an entry
      with fewer than two components then aborts the call with everything
      else unchanged. On success exactly one series, the entries cut to
      their first two components, is appended, the extrema are overwritten
      with those of that series alone, and the statistics are recomputed. */
  function AddData(c: Chart, input: Input): (r: Step)
    ensures input.Absent? ==> r == Step(c, Rejected)
    ensures input.Present? && !AllValid(input.entries) ==>
      r == Step(c.(maxDataLength := Max(c.maxDataLength, |input.entries|)), Rejected)
    ensures input.Present? && AllValid(input.entries) ==>
      && r.status == Ok
      && SameShape(r.chart, c)
      && r.chart.data == c.data + [Series(Pairs(input.entries))]
      && r.chart.extrema == Fold(Unset, input.entries)
      && r.chart.maxDataLength == Max(c.maxDataLength, |input.entries|)
      && r.chart.stats == StatsFor(r.chart)
  {
    match input
    case Absent => Step(c, Rejected)
    case Present(es) =>
      var c1 := c.(maxDataLength := Max(c.maxDataLength, |es|));
      if !AllValid(es) then Step(c1, Rejected)
      else Step(UpdateStat(c1.(data := c1.data + [Series(Pairs(es))], extrema := Fold(Unset, es))), Ok)
  }

  /** The construction `new Linechart(game, x, y, width, height, data)`:
      geometry from the arguments, sentinel extrema, no series, and then
      `addData(data)`, which treats `data` as one series. An omitted `data`
      is `Present([])`; `Absent` stands for an explicit `null`. */
  function New(x: int, y: int, width: int, height: int, data: Input): (r: Chart)
    ensures r.x == x && r.y == y && r.width == width && r.height == height && Geometric(r)
    ensures data.Absent? ==> r.data == [] && r.extrema == Unset && r.maxDataLength == 0 && r.stats.NoStats?
    ensures data.Present? && !AllValid(data.entries) ==>
      r.data == [] && r.extrema == Unset && r.maxDataLength == |data.entries| && r.stats.NoStats?
    ensures data.Present? && AllValid(data.entries) ==>
      && r.data == [Series(Pairs(data.entries))] && r.maxDataLength == |data.entries|
      && r.extrema == Fold(Unset, data.entries) && r.stats == StatsFor(r)
  {
    var blank := Chart(x, y, width, height, 0, 0, 0, 0, [], Unset, 0, NoStats);
    AddData(UpdateCoordinate(blank, x, y), data).chart
  }

  /** `reset()`: drops every series; geometry, extrema, `maxDataLength`
      and statistics are left as they were. */
  function Reset(c: Chart): (r: Chart)
    ensures r.data == []
    ensures r.(data := c.data) == c
  {
    c.(data := [])
  }

  /** `resize(width, height)`: new size, bounds re-derived from the
      original anchor (x, y), statistics recomputed; series, extrema and
      `maxDataLength` untouched. */
  function Resize(c: Chart, width: int, height: int): (r: Chart)
    ensures r.x == c.x && r.y == c.y && r.width == width && r.height == height
    ensures Geometric(r)
    ensures r.data == c.data && r.extrema == c.extrema && r.maxDataLength == c.maxDataLength
    ensures r.stats.Stats?
    ensures r.stats.startX == c.x + 35 && r.stats.endX == c.x + width - 25
    ensures r.stats.startY == c.y + 100 && r.stats.endY == c.y + height + 6
    ensures r.stats == StatsFor(r)
  {
    UpdateStat(UpdateCoordinate(c.(width := width, height := height), c.x, c.y))
  }

  /** The series list after slot `index` is set to `s`, where `index` may be
      one past the end (a JavaScript array assignment that grows the array). */
  function Put(data: seq<Slot>, index: nat, s: Slot): (r: seq<Slot>)
    requires index <= |data|
    ensures |r| == if index == |data| then |data| + 1 else |data|
    ensures r[index] == s
    ensures forall k :: 0 <= k < |data| && k != index ==> r[k] == data[k]
  {
    if index == |data| then data + [s] else data[index := s]
  }

  /** The points already held at `index`: none when `index` is one past the end. */
  function PointsAt(data: seq<Slot>, index: nat): seq<Entry>
    requires index <= |data|
  {
    if index < |data| && data[index].Series? then data[index].points else []
  }

  predicate EntryAccepted(c: Chart, index: int, e: Entry) {
    Valid(e) && 0 <= index <= |c.data|
  }

  /** `addEntry(index, newEntry)`: rejected with no change when the entry
      has fewer than two components or the index is outside 0..data.length;
      a TypeError with no change when slot `index` is a hole. Otherwise the
      entry, as given, is appended to series `index` only (a new series when
      `index == data.length`), the extrema only widen to take it in, the
      statistics are recomputed with the old `maxDataLength`, and only then
      is `maxDataLength` raised to the length of series `index`. */
  function AddEntry(c: Chart, index: int, e: Entry): (r: Step)
    ensures r.status == Rejected <==> !EntryAccepted(c, index, e)
    ensures r.status == Threw <==> EntryAccepted(c, index, e) && index < |c.data| && c.data[index].Hole?
    ensures r.status != Ok ==> r.chart == c
    ensures r.status == Ok ==>
      && SameShape(r.chart, c)
      && r.chart.data == Put(c.data, index, Series(PointsAt(c.data, index) + [e]))
      && WiderOrEqual(r.chart.extrema, c.extrema) && Encloses(r.chart.extrema, e)
      && r.chart.extrema == Widen(c.extrema, e)
      && r.chart.maxDataLength == Max(c.maxDataLength, |PointsAt(c.data, index)| + 1)
      && r.chart.stats == StatsFor(r.chart.(maxDataLength := c.maxDataLength))
  {
    if |e| < 2 || index < 0 || index > |c.data| then Step(c, Rejected)
    else
      var data := if index == |c.data| then c.data + [Series([])] else c.data;
      match data[index]
      case Hole => Step(c, Threw)
      case Series(ps) =>
        var c1 := UpdateStat(c.(data := data[index := Series(ps + [e])], extrema := Widen(c.extrema, e)));
        Step(c1.(maxDataLength := Max(c1.maxDataLength, |ps| + 1)), Ok)
  }

  /** The number of leading entries that have at least two components: how
      far `replaceData` gets before an entry is rejected. */
  function ValidPrefix(es: seq<Entry>): (k: nat)
    ensures k <= |es|
    ensures forall i :: 0 <= i < |es| && i < k ==> Valid(es[i])
    ensures k < |es| ==> !Valid(es[k])
    ensures k == |es| <==> AllValid(es)
  {
    if es == [] || !Valid(es[0]) then 0 else 1 + ValidPrefix(es[1..])
  }

  /** `replaceData(index, newData)`: an index outside 0..data.length changes
      nothing. Otherwise the slot is cleared and refilled by `addEntry`, one
      entry at a time; the first rejected entry restores the slot's previous
      content (a hole when the index was one past the end) and the call
      fails, keeping the extrema widened by the entries accepted before it. */
  method ReplaceData(c: Chart, index: int, es: seq<Entry>) returns (r: Step)
    ensures index < 0 || index > |c.data| ==> r == Step(c, Rejected)
    ensures r.status != Threw && SameShape(r.chart, c)
    ensures 0 <= index <= |c.data| ==>
      && r.chart.extrema == FoldWhileValid(c.extrema, es)
      && r.chart.maxDataLength == Max(c.maxDataLength, ValidPrefix(es))
    ensures 0 <= index <= |c.data| && AllValid(es) ==>
      && r.status == Ok
      && r.chart.data == Put(c.data, index, Series(es))
      && r.chart.extrema == Fold(c.extrema, es)
    ensures 0 <= index <= |c.data| && !AllValid(es) ==>
      && r.status == Rejected
      && r.chart.data == (if index < |c.data| then c.data else c.data + [Hole])
    ensures Consistent(c) ==> Consistent(r.chart)
  {
    if index < 0 || index > |c.data| {
      return Step(c, Rejected);
    }
    var previous := if index < |c.data| then c.data[index] else Hole;
    var cur := c.(data := Put(c.data, index, Series([])));
    if Consistent(c) {
      SlotConsistent(c, index, Series([]));
    }
    var i := 0;
    assert es[..0] == [];
    while i < |es|
      invariant 0 <= i <= |es| && AllValid(es[..i])
      invariant SameShape(cur, c)
      invariant cur.data == Put(c.data, index, Series(es[..i]))
      invariant cur.extrema == Fold(c.extrema, es[..i])
      invariant cur.maxDataLength == Max(c.maxDataLength, i)
      invariant Consistent(c) ==> Consistent(cur)
    {
      var s := AddEntry(cur, index, es[i]);
      if s.status != Ok {
        ReplaceRollback(c, cur, index, es, i);
        return Step(cur.(data := cur.data[index := previous]), Rejected);
      }
      ReplaceStep(c, cur, index, es, i);
      cur := s.chart;
      i := i + 1;
    }
    assert es[..i] == es;
    ReplaceComplete(c, cur, es);
    return Step(cur, Ok);
  }

  /** A loop that accepted every entry has tracked the whole list: the valid
      prefix is all of it. */
  lemma ReplaceComplete(c: Chart, cur: Chart, es: seq<Entry>)
    requires AllValid(es)
    requires cur.extrema == Fold(c.extrema, es)
    requires cur.maxDataLength == Max(c.maxDataLength, |es|)
    ensures cur.extrema == FoldWhileValid(c.extrema, es)
    ensures cur.maxDataLength == Max(c.maxDataLength, ValidPrefix(es))
  {
    FoldWhileValidAll(c.extrema, es);
  }

  /** Where an entry is rejected after a run of accepted ones, that run is
      exactly the valid prefix. */
  lemma ValidPrefixStops(es: seq<Entry>, i: nat)
    requires i < |es| && AllValid(es[..i]) && !Valid(es[i])
    ensures ValidPrefix(es) == i
  {
    assert forall j :: 0 <= j < i ==> es[..i][j] == es[j];
  }

  /** A refused entry ends the `replaceData` loop: restoring the slot gives
      back the series list of `c` (a hole past the end), while extrema and
      `maxDataLength` keep the entries accepted before it. */
  lemma ReplaceRollback(c: Chart, cur: Chart, index: nat, es: seq<Entry>, i: nat)
    requires index <= |c.data| && i < |es| && AllValid(es[..i])
    requires SameShape(cur, c) && cur.data == Put(c.data, index, Series(es[..i]))
    requires cur.extrema == Fold(c.extrema, es[..i])
    requires cur.maxDataLength == Max(c.maxDataLength, i)
    requires Consistent(c) ==> Consistent(cur)
    requires AddEntry(cur, index, es[i]).status != Ok
    ensures var r := cur.(data := cur.data[index := if index < |c.data| then c.data[index] else Hole]);
      && !AllValid(es)
      && SameShape(r, c)
      && r.data == (if index < |c.data| then c.data else c.data + [Hole])
      && r.extrema == FoldWhileValid(c.extrema, es)
      && r.maxDataLength == Max(c.maxDataLength, ValidPrefix(es))
      && (Consistent(c) ==> Consistent(r))
  {
    assert cur.data[index] == Series(es[..i]);
    assert !Valid(es[i]);
    ValidPrefixStops(es, i);
    FoldWhileValidStops(c.extrema, es, i);
    var restored := cur.data[index := if index < |c.data| then c.data[index] else Hole];
    assert index < |c.data| ==> restored == c.data;
    assert index == |c.data| ==> restored == c.data + [Hole];
    if Consistent(c) {
      RestoreConsistent(c, cur, index);
    }
  }

  /** One accepted iteration of the `replaceData` loop: the series at
      `index` grows by the entry and the extrema track it. */
  lemma ReplaceStep(c: Chart, cur: Chart, index: nat, es: seq<Entry>, i: nat)
    requires index <= |c.data| && i < |es| && AllValid(es[..i])
    requires SameShape(cur, c) && cur.data == Put(c.data, index, Series(es[..i]))
    requires cur.extrema == Fold(c.extrema, es[..i])
    requires cur.maxDataLength == Max(c.maxDataLength, i)
    requires Consistent(c) ==> Consistent(cur)
    requires AddEntry(cur, index, es[i]).status == Ok
    ensures var n := AddEntry(cur, index, es[i]).chart;
      && (Consistent(c) ==> Consistent(n))
      && AllValid(es[..i + 1])
      && SameShape(n, c)
      && n.data == Put(c.data, index, Series(es[..i + 1]))
      && n.extrema == Fold(c.extrema, es[..i + 1])
      && n.maxDataLength == Max(c.maxDataLength, i + 1)
  {
    if Consistent(c) {
      AddEntryConsistent(cur, index, es[i]);
    }
    assert es[..i + 1] == es[..i] + [es[i]];
    FoldSnoc(c.extrema, es[..i], es[i]);
    var n := AddEntry(cur, index, es[i]).chart;
    assert PointsAt(cur.data, index) == es[..i];
    assert n.data == cur.data[index := Series(es[..i + 1])];
  }

  lemma AddEntryConsistent(c: Chart, index: int, e: Entry)
    requires Consistent(c)
    ensures Consistent(AddEntry(c, index, e).chart)
  {
    var s := AddEntry(c, index, e);
    if s.status == Ok {
      var r := s.chart;
      var ps := PointsAt(c.data, index);
      assert AllValid(ps + [e]);
      forall k | 0 <= k < |r.data| && r.data[k].Series?
        ensures AllValid(r.data[k].points) && |r.data[k].points| <= r.maxDataLength
      {
        if k != index {
          assert r.data[k] == c.data[k];
        }
      }
    }
  }

  /** Storing a valid slot no longer than `maxDataLength` keeps a chart consistent. */
  lemma SlotConsistent(c: Chart, index: nat, s: Slot)
    requires Consistent(c) && index <= |c.data|
    requires s.Series? ==> AllValid(s.points) && |s.points| <= c.maxDataLength
    ensures Consistent(c.(data := Put(c.data, index, s)))
  {
  }

  /** The rollback of `replaceData` puts back a slot of the original chart,
      or a hole, into a chart whose `maxDataLength` has only grown. */
  lemma RestoreConsistent(c: Chart, cur: Chart, index: nat)
    requires Consistent(c) && Consistent(cur)
    requires index <= |c.data| && |cur.data| == (if index == |c.data| then |c.data| + 1 else |c.data|)
    requires cur.maxDataLength >= c.maxDataLength
    ensures Consistent(cur.(data := cur.data[index := if index < |c.data| then c.data[index] else Hole]))
  {
  }

  /** Construction yields a consistent chart, whatever the initial data. */
  lemma NewConsistent(x: int, y: int, width: int, height: int, data: Input)
    ensures Consistent(New(x, y, width, height, data))
  {
    var blank := UpdateCoordinate(Chart(x, y, width, height, 0, 0, 0, 0, [], Unset, 0, NoStats), x, y);
    assert Consistent(blank);
    AddDataConsistent(blank, data);
  }

  lemma AddDataConsistent(c: Chart, input: Input)
    requires Consistent(c)
    ensures Consistent(AddData(c, input).chart)
  {
    if input.Present? && AllValid(input.entries) {
      FoldWidens(Unset, input.entries);
    }
  }

  lemma ResizeConsistent(c: Chart, width: int, height: int)
    requires Consistent(c)
    ensures Consistent(Resize(c, width, height))
  {
  }

  lemma ResetConsistent(c: Chart)
    requires Consistent(c)
    ensures Consistent(Reset(c))
  {
  }

  /** After a successful `addData` the extrema are exactly those of the new
      series: sentinels for an empty series, and otherwise the least and
      greatest x and y of its entries. */
  lemma AddDataTakesSeriesExtrema(c: Chart, es: seq<Entry>)
    requires AllValid(es)
    ensures var b := AddData(c, Present(es)).chart.extrema;
      && (es == [] ==> b == Unset)
      && (es != [] ==>
            && b.maxX.Fin? && b.minX.Fin? && b.maxY.Fin? && b.minY.Fin?
            && (forall i :: 0 <= i < |es| ==>
                  b.minX.v <= es[i][0] <= b.maxX.v && b.minY.v <= es[i][1] <= b.maxY.v)
            && (exists i :: 0 <= i < |es| && b.maxX.v == es[i][0])
            && (exists i :: 0 <= i < |es| && b.minX.v == es[i][0])
            && (exists i :: 0 <= i < |es| && b.maxY.v == es[i][1])
            && (exists i :: 0 <= i < |es| && b.minY.v == es[i][1]))
  {
    FoldWidens(Unset, es);
    FoldAttains(Unset, es);
    var b := Fold(Unset, es);
    forall i | 0 <= i < |es|
      ensures Encloses(b, es[i])
    {
    }
  }

  /** The extrema are overwritten, not merged: a point of an earlier series
      lying right of every x of the newly added series falls outside the
      chart's X range afterwards. */
  lemma AddDataForgetsEarlierSeries(c: Chart, es: seq<Entry>, p: Entry)
    requires AllValid(es) && es != [] && Valid(p)
    requires forall i :: 0 <= i < |es| ==> es[i][0] < p[0]
    ensures !Encloses(AddData(c, Present(es)).chart.extrema, p)
  {
    FoldWidens(Unset, es);
    FoldAttains(Unset, es);
  }

  /** Only the last resize counts: geometry and statistics are a function of
      (x, y, width, height) and the data, not of earlier sizes. */
  lemma ResizeLastWins(c: Chart, w1: int, h1: int, w2: int, h2: int)
    ensures Resize(Resize(c, w1, h1), w2, h2) == Resize(c, w2, h2)
  {
  }

  /** `updateCoordinate` at the chart's own anchor, as `resize` and the
      constructor call it, changes nothing on a consistent chart. */
  lemma UpdateCoordinateAtAnchor(c: Chart)
    requires Consistent(c)
    ensures UpdateCoordinate(c, c.x, c.y) == c
  {
  }

  /** Called directly with any other anchor, `updateCoordinate` moves the
      outer bounds away from `x` and `y`, which it leaves as they were, so
      the bounds are no longer derived from the anchor. */
  lemma UpdateCoordinateElsewhere(c: Chart, x: int, y: int)
    requires x != c.x || y != c.y
    ensures !Geometric(UpdateCoordinate(c, x, y))
    ensures UpdateCoordinate(c, x, y).stats == c.stats
  {
  }
}

=== FILE: draw.dfy ===
/** The pure formulas inside `draw`: the mapping of a data point to canvas
    pixels and the per-series colour hues. The canvas calls themselves are
    not modelled. */
module Draw {
  import J = JsNumber
  import opened Extrema
  import opened Stat
  import opened LineChart

  /** Pixel x of a data x: `(dataX - minX) * coordinateStepValueX + startX`. */
  function PixelX(dataX: int, minX: ExtInt, step: J.Num, startX: int): (r: J.Num)
    ensures minX.Fin? && step.Real? ==> r == J.Real((dataX as real - minX.v as real) * step.v + startX as real)
    ensures step.NaN? ==> r.NaN?
  {
    var d := J.Sub(J.FromInt(dataX), ToNum(minX));
    assert minX.Fin? ==> d == J.Real(dataX as real - minX.v as real);
    assert minX.Fin? && step.Real? ==> J.Mul(d, step) == J.Real(d.v * step.v);
    assert minX.Fin? && step.Real? ==> J.Add(J.Mul(d, step), J.FromInt(startX)) == J.Real(d.v * step.v + startX as real);
    J.Add(J.Mul(d, step), J.FromInt(startX))
  }

  /** Pixel y of a data y: `endY - (dataY - minY) * coordinateStepValueY`. */
  function PixelY(dataY: int, minY: ExtInt, step: J.Num, endY: int): (r: J.Num)
    ensures minY.Fin? && step.Real? ==> r == J.Real(endY as real - (dataY as real - minY.v as real) * step.v)
    ensures step.NaN? ==> r.NaN?
  {
    var d := J.Sub(J.FromInt(dataY), ToNum(minY));
    assert minY.Fin? ==> d == J.Real(dataY as real - minY.v as real);
    assert minY.Fin? && step.Real? ==> J.Mul(d, step) == J.Real(d.v * step.v);
    assert minY.Fin? && step.Real? ==> J.Sub(J.FromInt(endY), J.Mul(d, step)) == J.Real(endY as real - d.v * step.v);
    J.Sub(J.FromInt(endY), J.Mul(d, step))
  }

  /** With the step `span / (hi - lo)` the X mapping sends `lo` to `startX`
      and `hi` to `startX + span`. */
  lemma PixelXEnds(lo: int, hi: int, span: int, startX: int)
    requires lo < hi
    ensures var step := J.Real(span as real / (hi - lo) as real);
      && PixelX(lo, Fin(lo), step, startX) == J.FromInt(startX)
      && PixelX(hi, Fin(lo), step, startX) == J.FromInt(startX + span)
  {
    var q := span as real / (hi - lo) as real;
    assert (hi - lo) as real * q == span as real;
  }

  /** With the step `span / (hi - lo)` the Y mapping sends `lo` to `endY`
      and `hi` to `endY - span`. */
  lemma PixelYEnds(lo: int, hi: int, span: int, endY: int)
    requires lo < hi
    ensures var step := J.Real(span as real / (hi - lo) as real);
      && PixelY(lo, Fin(lo), step, endY) == J.FromInt(endY)
      && PixelY(hi, Fin(lo), step, endY) == J.FromInt(endY - span)
  {
    var q := span as real / (hi - lo) as real;
    assert (hi - lo) as real * q == span as real;
  }

  /** On a consistent chart with a non-empty X range and a width other than
      exactly the 60 of its margins (so a non-zero pixel span, negative
      included), the X mapping sends `minX` to `startX` and `maxX` to `endX`. */
  lemma PixelXSpansPlot(c: Chart)
    requires Consistent(c) && c.stats.Stats?
    requires c.extrema.minX.Fin? && c.extrema.maxX.Fin? && c.extrema.minX.v < c.extrema.maxX.v
    requires c.width != 60
    ensures PixelX(c.extrema.minX.v, c.extrema.minX, c.stats.coordStepX, c.stats.startX) == J.FromInt(c.stats.startX)
    ensures PixelX(c.extrema.maxX.v, c.extrema.minX, c.stats.coordStepX, c.stats.startX) == J.FromInt(c.stats.endX)
  {
    var b := c.extrema;
    var s := c.stats;
    CoordStepQuotient(s.endX - s.startX, b.maxX, b.minX);
    PixelXEnds(b.minX.v, b.maxX.v, s.endX - s.startX, s.startX);
  }

  /** On a consistent chart with a non-empty Y range and a height other than
      exactly the 94 of its margins (so a non-zero pixel span, negative
      included), the Y mapping sends `minY` to `endY` and `maxY` to `startY`. */
  lemma PixelYSpansPlot(c: Chart)
    requires Consistent(c) && c.stats.Stats?
    requires c.extrema.minY.Fin? && c.extrema.maxY.Fin? && c.extrema.minY.v < c.extrema.maxY.v
    requires c.height != 94
    ensures PixelY(c.extrema.minY.v, c.extrema.minY, c.stats.coordStepY, c.stats.endY) == J.FromInt(c.stats.endY)
    ensures PixelY(c.extrema.maxY.v, c.extrema.minY, c.stats.coordStepY, c.stats.endY) == J.FromInt(c.stats.startY)
  {
    var b := c.extrema;
    var s := c.stats;
    CoordStepQuotient(s.endY - s.startY, b.maxY, b.minY);
    PixelYEnds(b.minY.v, b.maxY.v, s.endY - s.startY, s.endY);
  }

  /** Whenever the X step is finite the minimum X maps to `startX`, whatever
      the range, including a guarded step of 1. */
  lemma PixelXAtMinimum(c: Chart)
    requires c.stats.Stats? && c.extrema.minX.Fin? && c.stats.coordStepX.Real?
    ensures PixelX(c.extrema.minX.v, c.extrema.minX, c.stats.coordStepX, c.stats.startX) == J.FromInt(c.stats.startX)
  {
  }

  /** Whenever the Y step is finite the minimum Y maps to `endY`. */
  lemma PixelYAtMinimum(c: Chart)
    requires c.stats.Stats? && c.extrema.minY.Fin? && c.stats.coordStepY.Real?
    ensures PixelY(c.extrema.minY.v, c.extrema.minY, c.stats.coordStepY, c.stats.endY) == J.FromInt(c.stats.endY)
  {
  }

  /** At the minimum itself a step of 1 gives `startX` and a step of
      -Infinity gives NaN (zero times an infinity). */
  lemma PixelXAtOwnMinimum(m: int, startX: int)
    ensures PixelX(m, Fin(m), J.Real(1.0), startX) == J.FromInt(startX)
    ensures PixelX(m, Fin(m), J.NegInf, startX).NaN?
  {
  }

  /** At the minimum itself a step of 1 gives `endY` and a step of
      -Infinity gives NaN. */
  lemma PixelYAtOwnMinimum(m: int, endY: int)
    ensures PixelY(m, Fin(m), J.Real(1.0), endY) == J.FromInt(endY)
    ensures PixelY(m, Fin(m), J.NegInf, endY).NaN?
  {
  }

  /** A chart whose X range is a single value: with a plot at least as wide
      as its margins the step is guarded to 1 and that value maps to
      `startX`; with a narrower plot the span is negative, the step is
      -Infinity and the value maps to NaN. */
  lemma SinglePointX(c: Chart)
    requires Consistent(c) && c.stats.Stats? && c.extrema.minX.Fin? && c.extrema.minX == c.extrema.maxX
    ensures c.width >= 60 ==>
      && c.stats.coordStepX == J.Real(1.0)
      && PixelX(c.extrema.minX.v, c.extrema.minX, c.stats.coordStepX, c.stats.startX) == J.FromInt(c.stats.startX)
    ensures c.width < 60 ==>
      && c.stats.coordStepX == J.NegInf
      && PixelX(c.extrema.minX.v, c.extrema.minX, c.stats.coordStepX, c.stats.startX).NaN?
  {
    var span := c.stats.endX - c.stats.startX;
    assert span == c.width - 60;
    assert c.stats.coordStepX == CoordStep(span, c.extrema.minX, c.extrema.minX);
    CoordStepZeroRange(span, c.extrema.minX.v);
    PixelXAtOwnMinimum(c.extrema.minX.v, c.stats.startX);
  }

  /** A chart whose Y range is a single value: with a plot at least as tall
      as its margins that value maps to `endY`; with a shorter plot the step
      is -Infinity and it maps to NaN. */
  lemma SinglePointY(c: Chart)
    requires Consistent(c) && c.stats.Stats? && c.extrema.minY.Fin? && c.extrema.minY == c.extrema.maxY
    ensures c.height >= 94 ==>
      && c.stats.coordStepY == J.Real(1.0)
      && PixelY(c.extrema.minY.v, c.extrema.minY, c.stats.coordStepY, c.stats.endY) == J.FromInt(c.stats.endY)
    ensures c.height < 94 ==>
      && c.stats.coordStepY == J.NegInf
      && PixelY(c.extrema.minY.v, c.extrema.minY, c.stats.coordStepY, c.stats.endY).NaN?
  {
    var span := c.stats.endY - c.stats.startY;
    assert span == c.height - 94;
    assert c.stats.coordStepY == CoordStep(span, c.extrema.minY, c.extrema.minY);
    CoordStepZeroRange(span, c.extrema.minY.v);
    PixelYAtOwnMinimum(c.extrema.minY.v, c.stats.endY);
  }

  /** With a finite minimum and a positive step the X mapping preserves the
      order of data values, and the Y mapping reverses it. */
  lemma PixelOrder(a: int, b: int, m: int, step: J.Num, startX: int, endY: int)
    requires a <= b && step.Real? && step.v > 0.0
    ensures PixelX(a, Fin(m), step, startX).Real? && PixelX(b, Fin(m), step, startX).Real?
    ensures PixelX(a, Fin(m), step, startX).v <= PixelX(b, Fin(m), step, startX).v
    ensures PixelY(a, Fin(m), step, endY).Real? && PixelY(b, Fin(m), step, endY).Real?
    ensures PixelY(b, Fin(m), step, endY).v <= PixelY(a, Fin(m), step, endY).v
  {
    var s := step.v;
    assert (b - m) as real * s - (a - m) as real * s == (b - a) as real * s;
    assert (b - a) as real * s >= 0.0;
  }

  /** With sentinel extrema (after `addData` of an empty series) every point
      of an earlier series maps to -Infinity horizontally and +Infinity
      vertically, so it is drawn nowhere on the canvas. */
  lemma SentinelExtremaLosePoints(c: Chart, e: Entry)
    requires Consistent(c) && c.stats.Stats? && c.extrema == Unset && Valid(e)
    ensures PixelX(e[0], c.extrema.minX, c.stats.coordStepX, c.stats.startX) == J.NegInf
    ensures PixelY(e[1], c.extrema.minY, c.stats.coordStepY, c.stats.endY) == J.PosInf
  {
  }

  /** The hue used for series `k` by a colour that starts at `start` and
      advances by `step` modulo 361 after every series. */
  function Hue(start: nat, step: nat, k: nat): (h: nat)
    requires start <= 360
    ensures h <= 360
  {
    if k == 0 then start else (Hue(start, step, k - 1) + step) % 361
  }

  /** `lineColor`: 300, advancing by 100 per series. */
  function LineHue(k: nat): (h: nat)
    ensures h <= 360
  {
    Hue(300, 100, k)
  }

  /** `pointColor`: 200, advancing by 50 per series. */
  function PointHue(k: nat): (h: nat)
    ensures h <= 360
  {
    Hue(200, 50, k)
  }

  lemma ModAddLeft(a: nat, b: nat)
    ensures (a % 361 + b) % 361 == (a + b) % 361
  {
    var q := a / 361;
    assert a == q * 361 + a % 361;
    assert a + b == (a % 361 + b) + q * 361;
  }

  lemma ModAddMultiple(a: nat, n: nat)
    ensures (a + 361 * n) % 361 == a % 361
  {
    var q := a / 361;
    assert a + 361 * n == 361 * (q + n) + a % 361;
  }

  /** The stepwise hue equals the closed form `(start + step * k) mod 361`. */
  lemma {:induction false} HueClosedForm(start: nat, step: nat, k: nat)
    requires start <= 360
    ensures Hue(start, step, k) == (start + step * k) % 361
  {
    if k > 0 {
      HueClosedForm(start, step, k - 1);
      ModAddLeft(start + step * (k - 1), step);
      assert start + step * (k - 1) + step == start + step * k;
    }
  }

  /** Hues repeat with period 361 series. */
  lemma HuePeriodic(start: nat, step: nat, k: nat)
    requires start <= 360
    ensures Hue(start, step, k + 361) == Hue(start, step, k)
  {
    HueClosedForm(start, step, k);
    HueClosedForm(start, step, k + 361);
    var a := start + step * k;
    assert start + step * (k + 361) == a + 361 * step;
    ModAddMultiple(a, step);
  }

  /** Consecutive series never share a line hue or a point hue. */
  lemma NeighbourHuesDiffer(k: nat)
    ensures LineHue(k + 1) != LineHue(k) && PointHue(k + 1) != PointHue(k)
  {
  }
}

=== FILE: extrema.dfy ===
/** Running extrema of the chart: `maxValueX`, `maxValueY`, `minValueX` and
    `minValueY`. They start at the sentinels -Infinity (maxima) and
    +Infinity (minima) and are otherwise values taken from data entries. */
module Extrema {
  import J = JsNumber

  /** A data entry: the source checks only that it has two components, so
      an entry is any sequence of integers; component 0 is x, 1 is y. */
  type Entry = seq<int>

  predicate Valid(e: Entry) {
    |e| >= 2
  }

  predicate AllValid(es: seq<Entry>) {
    forall i :: 0 <= i < |es| ==> Valid(es[i])
  }

  /** An integer extended with the two infinities used as sentinels. */
  datatype ExtInt = NegInf | PosInf | Fin(v: int)

  predicate Le(a: ExtInt, b: ExtInt) {
    match (a, b)
    case (NegInf, _) => true
    case (_, PosInf) => true
    case (Fin(x), Fin(y)) => x <= y
    case _ => false
  }

  function ToNum(a: ExtInt): J.Num {
    match a
    case NegInf => J.NegInf
    case PosInf => J.PosInf
    case Fin(v) => J.FromInt(v)
  }

  /** `Math.max(i, a)`: the least upper bound of `i` and `a`. */
  function MaxWith(i: int, a: ExtInt): (r: ExtInt)
    ensures Le(Fin(i), r) && Le(a, r)
    ensures r == Fin(i) || r == a
  {
    match a
    case NegInf => Fin(i)
    case PosInf => PosInf
    case Fin(v) => if v < i then Fin(i) else a
  }

  /** `Math.min(i, a)`: the greatest lower bound of `i` and `a`. */
  function MinWith(i: int, a: ExtInt): (r: ExtInt)
    ensures Le(r, Fin(i)) && Le(r, a)
    ensures r == Fin(i) || r == a
  {
    match a
    case NegInf => NegInf
    case PosInf => Fin(i)
    case Fin(v) => if i < v then Fin(i) else a
  }

  datatype Bounds = Bounds(maxX: ExtInt, maxY: ExtInt, minX: ExtInt, minY: ExtInt)

  /** The sentinel extrema of a chart that has seen no entry. */
  const Unset := Bounds(NegInf, NegInf, PosInf, PosInf)

  /** Either all four extrema are the sentinels, or all four are finite and
      each axis has its minimum at or below its maximum. */
  predicate WellFormed(b: Bounds) {
    b == Unset
    || (&& b.maxX.Fin? && b.minX.Fin? && b.maxY.Fin? && b.minY.Fin?
        && b.minX.v <= b.maxX.v && b.minY.v <= b.maxY.v)
  }

  /** `b` only widens `a`: every range of `a` lies inside the range of `b`. */
  predicate WiderOrEqual(b: Bounds, a: Bounds) {
    Le(a.maxX, b.maxX) && Le(a.maxY, b.maxY) && Le(b.minX, a.minX) && Le(b.minY, a.minY)
  }

  /** The entry's point lies within the ranges of `b`. */
  predicate Encloses(b: Bounds, e: Entry)
    requires Valid(e)
  {
    Le(b.minX, Fin(e[0])) && Le(Fin(e[0]), b.maxX) && Le(b.minY, Fin(e[1])) && Le(Fin(e[1]), b.maxY)
  }

  /** One step of extrema tracking: each extremum becomes the max or min of
      itself and the entry's component, as both `addData`'s loop and
      `addEntry` do. */
  function Widen(b: Bounds, e: Entry): (r: Bounds)
    requires Valid(e)
    ensures WiderOrEqual(r, b) && Encloses(r, e)
    ensures r.maxX in {b.maxX, Fin(e[0])} && r.minX in {b.minX, Fin(e[0])}
    ensures r.maxY in {b.maxY, Fin(e[1])} && r.minY in {b.minY, Fin(e[1])}
    ensures WellFormed(b) ==> WellFormed(r) && r.maxX.Fin?
  {
    Bounds(MaxWith(e[0], b.maxX), MaxWith(e[1], b.maxY), MinWith(e[0], b.minX), MinWith(e[1], b.minY))
  }

  /** Extrema tracked over `es` in order, starting from `b`. */
  function Fold(b: Bounds, es: seq<Entry>): (r: Bounds)
    requires AllValid(es)
    ensures WiderOrEqual(r, b)
    decreases |es|
  {
    if es == [] then b else Fold(Widen(b, es[0]), es[1..])
  }

  lemma LeTransitive(a: ExtInt, b: ExtInt, c: ExtInt)
    requires Le(a, b) && Le(b, c)
    ensures Le(a, c)
  {
  }

  /** Folding only ever widens the starting extrema, encloses every entry,
      and keeps well-formed extrema well-formed. */
  lemma {:induction false} FoldWidens(b: Bounds, es: seq<Entry>)
    requires AllValid(es)
    ensures WiderOrEqual(Fold(b, es), b)
    ensures forall i :: 0 <= i < |es| ==> Encloses(Fold(b, es), es[i])
    ensures WellFormed(b) ==> WellFormed(Fold(b, es))
    ensures WellFormed(b) && es != [] ==> Fold(b, es).maxX.Fin?
    decreases |es|
  {
    if es != [] {
      var w := Widen(b, es[0]);
      var r := Fold(w, es[1..]);
      FoldWidens(w, es[1..]);
      assert r == Fold(b, es);
      LeTransitive(r.minX, w.minX, b.minX);
      LeTransitive(r.minY, w.minY, b.minY);
      LeTransitive(b.maxX, w.maxX, r.maxX);
      LeTransitive(b.maxY, w.maxY, r.maxY);
      LeTransitive(r.minX, w.minX, Fin(es[0][0]));
      LeTransitive(Fin(es[0][0]), w.maxX, r.maxX);
      LeTransitive(r.minY, w.minY, Fin(es[0][1]));
      LeTransitive(Fin(es[0][1]), w.maxY, r.maxY);
      forall i | 0 <= i < |es|
        ensures Encloses(r, es[i])
      {
        if i > 0 {
          assert es[i] == es[1..][i - 1];
        }
      }
    }
  }

  /** Every folded extremum is either the starting one or a component of
      some entry: folding invents no values. */
  lemma {:induction false} FoldAttains(b: Bounds, es: seq<Entry>)
    requires AllValid(es)
    ensures var r := Fold(b, es);
      && (r.maxX == b.maxX || exists i :: 0 <= i < |es| && r.maxX == Fin(es[i][0]))
      && (r.minX == b.minX || exists i :: 0 <= i < |es| && r.minX == Fin(es[i][0]))
      && (r.maxY == b.maxY || exists i :: 0 <= i < |es| && r.maxY == Fin(es[i][1]))
      && (r.minY == b.minY || exists i :: 0 <= i < |es| && r.minY == Fin(es[i][1]))
    decreases |es|
  {
    if es != [] {
      var w := Widen(b, es[0]);
      var tail := es[1..];
      FoldAttains(w, tail);
      var r := Fold(w, tail);
      assert r == Fold(b, es);
      forall i | 0 <= i < |tail|
        ensures tail[i] == es[i + 1]
      {
      }
    }
  }

  /** Tracking one more entry at the end is one more widening step. */
  lemma {:induction false} FoldSnoc(b: Bounds, es: seq<Entry>, e: Entry)
    requires AllValid(es) && Valid(e)
    ensures AllValid(es + [e])
    ensures Fold(b, es + [e]) == Widen(Fold(b, es), e)
    decreases |es|
  {
    assert forall i :: 0 <= i < |es| ==> (es + [e])[i] == es[i];
    if es != [] {
      FoldSnoc(Widen(b, es[0]), es[1..], e);
      assert (es + [e])[1..] == es[1..] + [e];
    }
  }

  /** Extrema tracked over `es` in order, starting from `b`, up to the first
      entry with fewer than two components, where `addEntry` refuses and
      tracking stops. */
  function FoldWhileValid(b: Bounds, es: seq<Entry>): (r: Bounds)
    ensures WiderOrEqual(r, b)
    decreases |es|
  {
    if es == [] || !Valid(es[0]) then b else FoldWhileValid(Widen(b, es[0]), es[1..])
  }

  /** Over a list of valid entries tracking never stops early. */
  lemma {:induction false} FoldWhileValidAll(b: Bounds, es: seq<Entry>)
    requires AllValid(es)
    ensures FoldWhileValid(b, es) == Fold(b, es)
    decreases |es|
  {
    if es != [] {
      FoldWhileValidAll(Widen(b, es[0]), es[1..]);
    }
  }

  /** Tracking stops at the first invalid entry: it covers exactly the valid
      entries before it. */
  lemma {:induction false} FoldWhileValidStops(b: Bounds, es: seq<Entry>, i: nat)
    requires i < |es| && AllValid(es[..i]) && !Valid(es[i])
    ensures FoldWhileValid(b, es) == Fold(b, es[..i])
    decreases i
  {
    if i > 0 {
      assert es[..i][0] == es[0];
      assert es[1..][..i - 1] == es[..i][1..];
      FoldWhileValidStops(Widen(b, es[0]), es[1..], i - 1);
    }
  }
}

=== FILE: jsnumber.dfy ===
/** The fragment of JavaScript number semantics that the chart's statistics
    and its pixel mapping rely on. Finite values are exact reals (no
    rounding), and signed zero is not distinguished: every zero that reaches
    a divisor in the chart is a positive zero (an integer difference `a - a`
    or an integer literal), so dividing a non-zero value by it yields an
    infinity of the dividend's sign. */
module JsNumber {

  datatype Num = Real(v: real) | PosInf | NegInf | NaN

  function FromInt(i: int): Num {
    Real(i as real)
  }

  /** JavaScript truthiness of a number: everything except NaN and zero. */
  predicate Truthy(a: Num) {
    !(a.NaN? || a == Real(0.0))
  }

  /** -1, 0 or 1 according to the sign of a number that is not NaN. */
  function Sign(a: Num): int
    requires !a.NaN?
  {
    match a
    case PosInf => 1
    case NegInf => -1
    case Real(v) => if v > 0.0 then 1 else if v < 0.0 then -1 else 0
  }

  /** The infinity with the sign of `s`. */
  function Infinity(s: int): Num {
    if s < 0 then NegInf else PosInf
  }

  function Negate(a: Num): Num {
    match a
    case NaN => NaN
    case PosInf => NegInf
    case NegInf => PosInf
    case Real(v) => Real(-v)
  }

  function Add(a: Num, b: Num): Num {
    if a.NaN? || b.NaN? then NaN
    else if a.Real? && b.Real? then Real(a.v + b.v)
    else if a.Real? then b
    else if b.Real? then a
    else if a == b then a
    else NaN  // infinities of opposite sign
  }

  function Sub(a: Num, b: Num): Num {
    Add(a, Negate(b))
  }

  function Mul(a: Num, b: Num): Num {
    if a.NaN? || b.NaN? then NaN
    else if a.Real? && b.Real? then Real(a.v * b.v)
    else if Sign(a) * Sign(b) == 0 then NaN  // an infinity times zero
    else Infinity(Sign(a) * Sign(b))
  }

  function Div(a: Num, b: Num): Num {
    if a.NaN? || b.NaN? then NaN
    else if a.Real? && b.Real? then
      if b.v != 0.0 then Real(a.v / b.v)
      else if a.v == 0.0 then NaN
      else Infinity(Sign(a))
    else if b.Real? then Infinity(Sign(a) * (if b.v < 0.0 then -1 else 1))
    else if a.Real? then Real(0.0)
    else NaN  // an infinity over an infinity
  }

  /** The numeric order on numbers that are not NaN. */
  predicate Less(a: Num, b: Num)
    requires !a.NaN? && !b.NaN?
  {
    match (a, b)
    case (Real(x), Real(y)) => x < y
    case (NegInf, _) => !b.NegInf?
    case (_, PosInf) => !a.PosInf?
    case _ => false
  }

  /** `Math.max` of two numbers: NaN if either is NaN. */
  function Max(a: Num, b: Num): Num {
    if a.NaN? || b.NaN? then NaN
    else if Less(a, b) then b
    else a
  }
}

=== FILE: scenarios.dfy ===
/** Worked examples of the chart operations on small inputs, each proved as
    a lemma or a method contract. */
module Scenarios {
  import J = JsNumber
  import opened Extrema
  import opened Stat
  import opened LineChart

  /** Constructing with three points records them as one series and takes
      the extrema and `maxDataLength` from it. */
  lemma ConstructWithThreePoints()
    ensures var c := New(0, 0, 400, 300, Present([[1, 1], [2, 2], [3, 3]]));
      && c.data == [Series([[1, 1], [2, 2], [3, 3]])]
      && c.extrema == Bounds(Fin(3), Fin(3), Fin(1), Fin(1))
      && c.maxDataLength == 3
  {
    var es: seq<Entry> := [[1, 1], [2, 2], [3, 3]];
    assert AllValid(es);
    assert Pairs(es) == es;
    var b1 := Widen(Unset, es[0]);
    assert b1 == Bounds(Fin(1), Fin(1), Fin(1), Fin(1));
    var b2 := Widen(b1, es[1]);
    assert b2 == Bounds(Fin(2), Fin(2), Fin(1), Fin(1));
    var b3 := Widen(b2, es[2]);
    assert b3 == Bounds(Fin(3), Fin(3), Fin(1), Fin(1));
    assert es[1..][1..][1..] == [];
    assert Fold(Unset, es) == b3;
  }

  /** The default construction holds one empty series and sentinel extrema. */
  lemma DefaultConstruction()
    ensures var c := New(0, 0, 400, 300, Present([]));
      && c.data == [Series([])] && c.extrema == Unset && c.maxDataLength == 0
  {
    var none: seq<Entry> := [];
    assert Pairs(none) == [];
  }

  /** On such a chart a first entry at index 0 goes into the empty series
      and pins all four extrema to its coordinates. */
  lemma FirstEntryPinsExtrema(c: Chart)
    requires c.data == [Series([])] && c.extrema == Unset
    ensures var r := AddEntry(c, 0, [5, 5]);
      && r.status == Ok
      && r.chart.data == [Series([[5, 5]])]
      && r.chart.extrema == Bounds(Fin(5), Fin(5), Fin(5), Fin(5))
  {
    var e: Entry := [5, 5];
    assert PointsAt(c.data, 0) + [e] == [e];
  }

  /** After `reset` there is no series, and index 0 creates one. */
  lemma EntryAfterResetCreatesSeries()
    ensures var c := Reset(New(0, 0, 400, 300, Present([[1, 2]])));
      && c.data == []
      && AddEntry(c, 0, [5, 5]).chart.data == [Series([[5, 5]])]
  {
    var c := Reset(New(0, 0, 400, 300, Present([[1, 2]])));
    var e: Entry := [5, 5];
    assert c.data == [];
    assert AddEntry(c, 0, e).status == Ok;
    assert PointsAt(c.data, 0) + [e] == [e];
    assert AddEntry(c, 0, e).chart.data == Put(c.data, 0, Series([e]));
  }

  /** An entry with a single component is refused and nothing changes;
      extra components pass the length check and are kept as given. */
  lemma EntryLengthCheck()
    ensures var c := New(0, 0, 400, 300, Present([]));
      && AddEntry(c, 1, [2]) == Step(c, Rejected)
      && AddEntry(c, 1, [2, 3, 4]).chart.data == [Series([]), Series([[2, 3, 4]])]
  {
    var none: seq<Entry> := [];
    assert Pairs(none) == [];
    var c := New(0, 0, 400, 300, Present(none));
    assert c.data == [Series([])];
    var e: Entry := [2, 3, 4];
    assert AddEntry(c, 1, e).status == Ok;
    assert PointsAt(c.data, 1) + [e] == [e];
    assert AddEntry(c, 1, e).chart.data == Put(c.data, 1, Series([e]));
  }

  /** `addEntry` recomputes the statistics before raising `maxDataLength`,
      so the stored `actualStepValueX` is the one for the old length. */
  lemma EntryStatsLagLength()
    ensures var c := New(0, 0, 400, 300, Present([[0, 0]]));
      && var r := AddEntry(c, 0, [1, 0]).chart;
      && r.maxDataLength == 2
      && r.stats.actualStepX == J.Real(1.0)
      && StatsFor(r).actualStepX == J.Real(2.0)
  {
    var c := New(0, 0, 400, 300, Present([[0, 0]]));
    assert Pairs([[0, 0]]) == [[0, 0]];
    assert Fold(Unset, [[0, 0]]) == Bounds(Fin(0), Fin(0), Fin(0), Fin(0));
    assert c.data == [Series([[0, 0]])] && c.maxDataLength == 1;
    var s := AddEntry(c, 0, [1, 0]);
    var r := s.chart;
    assert r.extrema == Bounds(Fin(1), Fin(0), Fin(0), Fin(0));
    assert r.maxDataLength == 2;
    ActualStepQuotient(1, Fin(1), Fin(0));
    ActualStepQuotient(2, Fin(1), Fin(0));
  }

  /** A rejected entry aborts `addData` after `maxDataLength` was raised. */
  lemma AddDataRaisesLengthBeforeAbort()
    ensures var c := New(0, 0, 400, 300, Present([]));
      && var r := AddData(c, Present([[1, 1], [2], [3, 3]]));
      && r.status == Rejected && r.chart.data == c.data && r.chart.maxDataLength == 3
  {
    var es: seq<Entry> := [[1, 1], [2], [3, 3]];
    assert !Valid(es[1]);
  }

  /** Replacing series 0 with a list whose second entry is malformed rolls
      the series back, while the extrema keep the first accepted entry. */
  method ReplaceRollsBack() returns (r: Step)
    ensures r.status == Rejected
    ensures r.chart.data == [Series([[1, 1], [2, 2]])]
    ensures r.chart.extrema == Bounds(Fin(9), Fin(2), Fin(1), Fin(1))
  {
    var c := New(0, 0, 400, 300, Present([[1, 1], [2, 2]]));
    var es: seq<Entry> := [[9, 1], [2]];
    assert Pairs([[1, 1], [2, 2]]) == [[1, 1], [2, 2]];
    assert c.data == [Series([[1, 1], [2, 2]])];
    assert c.extrema == Bounds(Fin(2), Fin(2), Fin(1), Fin(1)) by {
      assert Fold(Unset, [[1, 1], [2, 2]]) == Fold(Bounds(Fin(1), Fin(1), Fin(1), Fin(1)), [[2, 2]]);
    }
    assert !Valid(es[1]);
    ValidPrefixStops(es, 1);
    assert es[..1] == [[9, 1]];
    assert Fold(c.extrema, [[9, 1]]) == Bounds(Fin(9), Fin(2), Fin(1), Fin(1));
    r := ReplaceData(c, 0, es);
  }

  /** A failed replacement one past the end leaves an undefined slot, and
      `addEntry` into that slot raises a TypeError. */
  method ReplaceLeavesHole() returns (r: Step, e: Step)
    ensures r.status == Rejected && r.chart.data == [Series([]), Hole]
    ensures e.status == Threw
  {
    var c := New(0, 0, 400, 300, Present([]));
    r := ReplaceData(c, 1, [[1]]);
    e := AddEntry(r.chart, 1, [3, 3]);
  }

  /** A successful replacement at a hole's index refills the slot. */
  method ReplaceRefillsHole() returns (r: Step, f: Step)
    ensures r.chart.data == [Series([]), Hole]
    ensures f.status == Ok && f.chart.data == [Series([]), Series([[3, 3]])]
  {
    var c := New(0, 0, 400, 300, Present([]));
    r := ReplaceData(c, 1, [[1]]);
    f := ReplaceData(r.chart, 1, [[3, 3]]);
  }
}

=== FILE: stat.dfy ===
/** `updateStat`: plot-area insets and scale factors derived from the outer
    bounds, the extrema and `maxDataLength`. */
module Stat {
  import J = JsNumber
  import opened Extrema

  /** The derived fields of a chart. `NoStats` stands for a chart on which
      `updateStat` has never run, whose derived fields are still undefined. */
  datatype Stats =
    | NoStats
    | Stats(startX: int, endX: int, startY: int, endY: int,
            actualStepX: J.Num, coordStepX: J.Num, coordStepY: J.Num)

  /** Fixed margins reserved for the axis labels. */
  const LeftMargin := 35
  const RightMargin := 25
  const BottomMargin := 100
  const TopMargin := 6

  function RealMax(a: real, b: real): real {
    if a < b then b else a
  }

  /** `actualStepValueX`: `max(maxDataLength / (maxX - minX), 1)`, replaced
      by 1 when falsy. It is at least 1 except in the one unguarded corner,
      a zero X range with a non-zero `maxDataLength`, where it is +Infinity;
      outside a non-empty finite range it is otherwise exactly 1. */
  function ActualStep(maxDataLength: nat, maxV: ExtInt, minV: ExtInt): (r: J.Num)
    ensures r == J.PosInf || (r.Real? && r.v >= 1.0)
    ensures r == J.PosInf <==> maxV.Fin? && maxV == minV && maxDataLength > 0
    ensures !(maxV.Fin? && minV.Fin? && minV.v < maxV.v) && r != J.PosInf ==> r == J.Real(1.0)
  {
    var q := J.Max(J.Div(J.FromInt(maxDataLength), J.Sub(ToNum(maxV), ToNum(minV))), J.Real(1.0));
    if J.Truthy(q) then q else J.Real(1.0)
  }

  /** `coordinateStepValueX` / `coordinateStepValueY`: pixels per data unit,
      `span / (maxV - minV)`, replaced by 1 when falsy or +Infinity. It is
      never zero, NaN or +Infinity; it is -Infinity exactly in the unguarded
      corner of a zero range with a negative pixel span; it is exactly 1
      whenever the range or the span is zero or a bound is a sentinel; and
      otherwise it is the plain quotient. */
  function CoordStep(span: int, maxV: ExtInt, minV: ExtInt): (r: J.Num)
    ensures !r.NaN? && r != J.PosInf && r != J.Real(0.0)
    ensures r == J.NegInf <==> maxV.Fin? && maxV == minV && span < 0
    ensures !(maxV.Fin? && minV.Fin?) ==> r == J.Real(1.0)
    ensures !(maxV.Fin? && minV.Fin? && maxV != minV && span != 0) && r != J.NegInf ==> r == J.Real(1.0)
  {
    var q := J.Div(J.FromInt(span), J.Sub(ToNum(maxV), ToNum(minV)));
    if !J.Truthy(q) || q == J.PosInf then J.Real(1.0) else q
  }

  /** Over a non-empty finite X range the step is the guarded quotient
      itself: `maxDataLength` points per unit of range, but at least 1. */
  lemma ActualStepQuotient(maxDataLength: nat, maxV: ExtInt, minV: ExtInt)
    requires maxV.Fin? && minV.Fin? && minV.v < maxV.v
    ensures ActualStep(maxDataLength, maxV, minV)
      == J.Real(RealMax(maxDataLength as real / (maxV.v - minV.v) as real, 1.0))
  {
  }

  /** With a non-zero finite range and a non-zero pixel span the guard does
      not fire: the step is exactly span / range. */
  lemma CoordStepQuotient(span: int, maxV: ExtInt, minV: ExtInt)
    requires maxV.Fin? && minV.Fin? && maxV != minV && span != 0
    ensures CoordStep(span, maxV, minV) == J.Real(span as real / (maxV.v - minV.v) as real)
  {
  }

  /** Over a zero finite range the step is 1, unless the pixel span is
      negative, where the unguarded -Infinity survives. */
  lemma CoordStepZeroRange(span: int, m: int)
    ensures CoordStep(span, Fin(m), Fin(m)) == if span < 0 then J.NegInf else J.Real(1.0)
  {
  }

  /** `updateStat` on outer bounds `left`, `right`, `bottom`, `top`. The
      plot area is the outer area shrunk by 60 horizontally and by 94
      vertically, anchored 35 right of `left` and 100 above `bottom`. */
  function Compute(left: int, right: int, bottom: int, top: int, b: Bounds, maxDataLength: nat): (r: Stats)
    ensures r.Stats?
    ensures r.startX - left == LeftMargin && r.endX - r.startX == right - left - 60
    ensures r.startY - bottom == BottomMargin && r.endY - r.startY == top - bottom - 94
    ensures r.coordStepX == CoordStep(r.endX - r.startX, b.maxX, b.minX)
    ensures r.coordStepY == CoordStep(r.endY - r.startY, b.maxY, b.minY)
    ensures r.actualStepX == ActualStep(maxDataLength, b.maxX, b.minX)
  {
    var startX := left + LeftMargin;
    var endX := right - RightMargin;
    var startY := bottom + BottomMargin;
    var endY := top + TopMargin;
    Stats(startX, endX, startY, endY,
          ActualStep(maxDataLength, b.maxX, b.minX),
          CoordStep(endX - startX, b.maxX, b.minX),
          CoordStep(endY - startY, b.maxY, b.minY))
  }
}
